=== FILE: README.md ===
# Blueprint edge reposition engine, modelled in Dafny

The application stores an exam blueprint as a flat table `blueprint_edges`.
Each row is one topic or subtopic. It has an `edget_id`, a nullable
`parent_id` (null for a root-level topic) and a `position`, which orders the
rows that share a parent. The agent's move-edge tool takes
`(edgeId, position, parentId?)`. It moves one row and renumbers the siblings
it leaves and the siblings it joins. This project models that tool and proves
what it does to every row of the table.

Modules, one concept each:

- `Edges` (`edges.dfy`): the table as `map<Id, Edge>` with
  `Edge = (parent: Option<Id>, position: int)`, sibling groups, and `Dense`
  (a group's positions are distinct and lie in 0..n-1).
- `Shifts` (`shift.dfy`): the select-then-update step. It selects rows by
  parent and a position range, then writes each selected row's position plus
  a delta. `Shift` is the one-step map update. `ApplyRows` is the per-row
  loop, taking rows in any order.
- `MoveEdge` (`move.dfy`): `Move` is the tool as a pure function, returning the
  reply (`Ok` or `Failed(NotFound)`) and the new table. `Execute` performs the
  tool's writes in the tool's order.
- `MoveProperties` (`move_lemmas.dfy`): per-branch effect on every row, the
  no-op, the omitted parent, the frame, and the root level.
- `Density` (`density.dfy`): when dense sibling groups stay dense.
- `Counting` (`counting.dfy`): `Dense` is equivalent to "the positions are
  exactly 0..n-1".
- `Ancestry` (`ancestry.dfy`): parent chains. The move keeps an acyclic table
  acyclic if the new parent is outside the moved row's subtree. Otherwise, the
  parent being the row itself or one of its descendants, the call succeeds
  and leaves a cycle.
- `Scenarios` (`scenarios.dfy`): concrete tables. Besides a worked reorder,
  they show five of the ways the code breaks a dense numbering: a slot past
  the end, a negative slot, joining past the end, leaving the root level, and
  reordering within the root level.

The model follows the code as written. In several places that is less than
an ordered-tree engine is usually expected to do:

- No clamping, and no rejection of negative positions. `position` is any
  integer.
- No cycle check.
- Root-level siblings are never renumbered. Every sibling shift is guarded by
  a non-null parent.
- An omitted `parentId` keeps the current parent. A present one must be a
  uuid, so a caller cannot move a row to the root level.
- No transaction: the writes are individual updates.

The usual guarantees of such an engine are stated as lemmas with the extra
preconditions they need: `Density.*` (slot in range, non-root group) and
`Ancestry.MoveKeepsAcyclic` (new parent outside the subtree). Each precondition
is needed, and a lemma shows what goes wrong without it:

- The slot below the group's size for a same-parent move:
  `Scenarios.SlotPastEndLeavesGap`.
- The slot not negative: `Scenarios.NegativeSlotLeavesGap`.
- The slot at most the group's size when joining a group:
  `Scenarios.JoinPastEndLeavesGap`.
- Non-root groups only: `Scenarios.LeavingRootLeavesGap` (the root level is not
  closed up) and `Scenarios.ReorderAtRootLeavesDuplicate` (the root level is
  not renumbered on a reorder).
- The new parent outside the subtree: `Ancestry.DescendantParentMakesCycle`,
  for every table.

These are concrete counterexamples, except the last, which covers all inputs.

## Model

| member | source | states |
|---|---|---|
| MoveEdge.Move | mastra/tools/move-edge-tool.ts:21-155 | The call fails exactly when no row has `edgeId`, and then the table is unchanged. The set of rows never changes. On success the moved row ends with parent `parentId ?? current parent` and the requested position. No other row changes parent. |
| MoveEdge.TargetParent | mastra/tools/move-edge-tool.ts:46-48 | An omitted `parentId` means the current parent, and a given one is used as is. The target is null only if the row was already at root level, so a move never makes a row root-level. |
| MoveEdge.Execute | mastra/tools/move-edge-tool.ts:24-148 | The tool's sequence reaches exactly the table `Move` describes: lookup, each select with its per-row writes (source group first, then destination group), then the write of the moved row. |
| Shifts.ApplyRows | mastra/tools/move-edge-tool.ts:54-67 | Writing each selected row's select-time position plus the delta, one row at a time and in any order, gives the one-step shift. Selected rows keep their parent and move by exactly the delta. Unselected rows are untouched. |
| MoveProperties.UnknownEdgeWritesNothing | mastra/tools/move-edge-tool.ts:26-44 | An unknown edge id gives `Failed(NotFound)` and the unchanged table. |
| MoveProperties.NoOpMove | mastra/tools/move-edge-tool.ts:93-100 | With the same parent and the same position, the call succeeds and the table is unchanged. |
| MoveProperties.OmittedParentIsCurrentParent | mastra/tools/move-edge-tool.ts:46-51 | Omitting `parentId` gives the same call as passing the row's current parent. |
| MoveProperties.MoveDownEffect | mastra/tools/move-edge-tool.ts:102-143 | Moving down within a non-root parent: exactly the siblings with old < pos <= new get pos - 1. The row gets the new position. Every other row is unchanged. |
| MoveProperties.MoveUpEffect | mastra/tools/move-edge-tool.ts:121-143 | Moving up within a non-root parent: exactly the siblings with new <= pos < old get pos + 1. The row gets the new position. Every other row is unchanged. |
| MoveProperties.MoveWithinRootEffect | mastra/tools/move-edge-tool.ts:102-143 | A move at root level with no parent given writes only the row's own position. |
| MoveProperties.CrossParentEffect | mastra/tools/move-edge-tool.ts:50-92 | Cross-parent move: old non-root siblings after the old slot get pos - 1. New siblings at or after the slot get pos + 1. The row becomes (new parent, new position). All else is unchanged. Such a move always names a non-null parent. |
| MoveProperties.MovedEdgeNeverShifted | mastra/tools/move-edge-tool.ts:50-140 | None of the four sibling filters selects the moved row. For the destination filter this holds of the table after the source group's shift. |
| MoveProperties.MoveFrame | mastra/tools/move-edge-tool.ts:50-143 | A row in neither the old nor the new parent's group keeps its record in every branch. |
| MoveProperties.RootNeverRenumbered | mastra/tools/move-edge-tool.ts:50-143 | No root-level row other than the moved row changes, in any branch. |
| Density.SameParentKeepsDense | mastra/tools/move-edge-tool.ts:93-143 | In a dense non-root group with 0 <= new < n, a same-parent move keeps the group's members, and their positions are again exactly 0..n-1: it permutes the group. |
| Density.LeavingKeepsDense | mastra/tools/move-edge-tool.ts:51-68 | A dense non-root group that the row leaves loses exactly that row, stays dense, and its positions are exactly 0..n-2. |
| Density.JoiningKeepsDense | mastra/tools/move-edge-tool.ts:70-92 | A dense group joined at slot 0 <= new <= m gains exactly the row, stays dense, and its positions are exactly 0..m. |
| Density.UntouchedGroupKeepsDense | mastra/tools/move-edge-tool.ts:50-143 | A group that is neither source nor destination keeps its members, and its density, unchanged. |
| Density.MoveKeepsNonRootDense | mastra/tools/move-edge-tool.ts:50-143 | If every non-root group is dense, every non-root group is dense after the move. The slot must be inside the group for a same-parent move in a non-root group, and at most the group's size when joining a group. A move that stays at root level may use any slot. |
| Ancestry.MoveKeepsAcyclic | mastra/tools/move-edge-tool.ts:46-92 | If the table is acyclic and the given parent is neither the row nor one of its descendants, the table stays acyclic. |
| Ancestry.DescendantParentMakesCycle | mastra/tools/move-edge-tool.ts:46-92 | Asking for a parent that is the row itself or any of its descendants succeeds and leaves the table with a cycle. |
| Ancestry.SelfParentAccepted | mastra/tools/move-edge-tool.ts:46-92 | Asking a row to become its own parent succeeds and creates a cycle. |
| Scenarios.MoveLastToSecond | mastra/tools/move-edge-tool.ts:121-143 | Subtopics at 0..3: moving the one at 3 to slot 1 moves the old occupants of slots 1 and 2 to 2 and 3. |
| Scenarios.SlotPastEndLeavesGap | mastra/tools/move-edge-tool.ts:102-143 | The slot is not clamped. Moving a row of a dense two-row group to slot 5 leaves the group non-dense. |
| Scenarios.LeavingRootLeavesGap | mastra/tools/move-edge-tool.ts:51-92 | Moving a root topic under a parent does not close its gap at root level. |
| Scenarios.NegativeSlotLeavesGap | mastra/tools/move-edge-tool.ts:121-143 | A negative slot is not rejected. Moving the second of two subtopics to slot -1 puts it at -1 and the first at 1, so the group is not dense. |
| Scenarios.JoinPastEndLeavesGap | mastra/tools/move-edge-tool.ts:50-92 | Joining a dense one-row group at slot 2 is not refused. Nothing is shifted, the group holds positions 0 and 2, and it is not dense. |
| Scenarios.ReorderAtRootLeavesDuplicate | mastra/tools/move-edge-tool.ts:93-143 | At root level a reorder renumbers no sibling. Moving the root topic at 0 to slot 2 leaves two topics at 2 and none at 0. |

## Left out

- Database I/O. The Supabase calls become reads and updates of an in-memory map.
- Query errors other than a missing row. A failed lookup and an exception caught
  at the end of the tool would both give `success: false`. Only the missing-row
  case is modelled, as `Failed(NotFound)`.
- MoveEdge.Move: positions are unbounded integers, so the moved row always ends
  at the requested position. In the tool `position` is any integer the schema
  accepts, and it is written to a bounded database integer column. The column's
  width is not part of this model. A value outside it would make that select
  or update fail. The tool ignores such failures and still reports success, so
  the model's promise holds only for positions that fit the column.
- Shifts.ApplyRows: assumes every per-row update succeeds. The tool ignores the
  result of each update, and a failed write would leave that row unshifted.
- Concurrency and partial application. The tool's writes are not a transaction,
  and two moves can interleave. The model applies one call as a whole.
- Input validation by the schema: uuid format of the ids, integer `position`.
  Ids are opaque strings, and `position` is an `int`. A call that the schema
  rejects never reaches the engine.
- The payload columns (title, description, weight, blueprint_id). The move
  never writes them. The blueprint id is read at lookup but never used.
  Without it the root level of the model is the root rows of the whole table.
  That matches one blueprint's root level only for a table holding a single
  blueprint, as every table in `Scenarios` does.
- Adding an edge (mastra/tools/add-edge-tool.ts, and the inline add in
  app/api/chat/route.ts). It is a single insert at the given position and
  shifts no siblings, so it has no ordering logic to model. Updating an edge or
  blueprint and listing edges are single updates or selects, also left out.
- Deleting an edge, and repairing a damaged numbering. No code for either exists.
- Clamping of positions, rejection of negative positions, and cycle detection.
  The code does none of them. They appear only as lemma preconditions.
- The weight limit of 100 per sibling group. It is prompt text for the agent and
  is never checked.
- LLM calls, prompts, import and analysis routes, and the user interface.

=== FILE: ancestry.dfy ===
/** Parent chains and cycles.

    The tool never checks that the new parent lies outside the moved row's
    own subtree, so a move can make a row its own ancestor. What does hold is
    the conditional guarantee: a move into a parent that is neither the row
    nor one of its descendants keeps an acyclic table acyclic.
 */
module Ancestry {
  import opened Edges
  import opened MoveEdge

  /** The row reached from `x` after `k` steps up the `parent_id` chain, or
      `None` once the chain has ended (a root row, or a parent id with no row). */
  function Climb(s: Store, x: Id, k: nat): Option<Id>
    decreases k
  {
    if k == 0 then Some(x)
    else if x in s && s[x].parent.Some? then Climb(s, s[x].parent.value, k - 1)
    else None
  }

  /** No row is its own ancestor. */
  ghost predicate Acyclic(s: Store)
  {
    forall x: Id, k: nat :: x in s && 1 <= k ==> Climb(s, x, k) != Some(x)
  }

  /** `p` is neither `id` nor below it: no chain from `p` ever reaches `id`. */
  ghost predicate OutsideSubtree(s: Store, id: Id, p: Id)
  {
    forall k: nat :: Climb(s, p, k) != Some(id)
  }

  /** Every row other than `id` keeps its parent from `s` to `t`. */
  predicate SameParentsExcept(s: Store, t: Store, id: Id)
  {
    && t.Keys == s.Keys
    && forall x :: x in s && x != id ==> t[x].parent == s[x].parent
  }

  /** Climbing `a + b` steps is climbing `a` steps and then `b` more. */
  lemma {:induction false} ClimbCompose(s: Store, y: Id, a: nat, b: nat)
    ensures Climb(s, y, a + b) == match Climb(s, y, a)
                                  case None => None
                                  case Some(z) => Climb(s, z, b)
    decreases a
  {
    if a != 0 && y in s && s[y].parent.Some? {
      ClimbCompose(s, s[y].parent.value, a - 1, b);
    }
  }

  /** A chain that avoids `id` is the same chain in `s` and `t`; otherwise it
      reaches `id` after some `j <= k` steps, and continues from there. */
  lemma {:induction false} ClimbSplit(s: Store, t: Store, id: Id, y: Id, k: nat) returns (hit: bool, j: nat)
    requires SameParentsExcept(s, t, id)
    ensures !hit ==> Climb(t, y, k) == Climb(s, y, k)
    ensures hit ==> j <= k && Climb(t, y, j) == Some(id) && Climb(t, y, k) == Climb(t, id, k - j)
    decreases k
  {
    if y == id {
      return true, 0;
    }
    if k == 0 {
      return false, 0;
    }
    if y in s && s[y].parent.Some? {
      var h, j' := ClimbSplit(s, t, id, s[y].parent.value, k - 1);
      return h, j' + 1;
    }
    return false, 0;
  }

  /** A chain in `s` that never reaches `id` never reaches it in `t` either. */
  lemma {:induction false} AvoidingChainUnchanged(s: Store, t: Store, id: Id, y: Id, k: nat)
    requires SameParentsExcept(s, t, id)
    requires OutsideSubtree(s, id, y)
    ensures Climb(t, y, k) == Climb(s, y, k)
    ensures Climb(t, y, k) != Some(id)
    decreases k
  {
    assert Climb(s, y, 0) != Some(id);
    if k != 0 && y in s && s[y].parent.Some? {
      var q := s[y].parent.value;
      forall j: nat
        ensures Climb(s, q, j) != Some(id)
      {
        assert Climb(s, y, j + 1) == Climb(s, q, j);
      }
      AvoidingChainUnchanged(s, t, id, q, k - 1);
    }
  }

  /** Re-parenting one row under a parent outside its subtree keeps an
      acyclic table acyclic. */
  lemma ReparentKeepsAcyclic(s: Store, t: Store, id: Id, p: Id)
    requires id in s
    requires SameParentsExcept(s, t, id)
    requires t[id].parent == Some(p)
    requires Acyclic(s)
    requires OutsideSubtree(s, id, p)
    ensures Acyclic(t)
  {
    // `id` does not climb back to itself in t.
    forall k: nat | 1 <= k
      ensures Climb(t, id, k) != Some(id)
    {
      AvoidingChainUnchanged(s, t, id, p, k - 1);
    }
    forall x: Id, k: nat | x in t && 1 <= k
      ensures Climb(t, x, k) != Some(x)
    {
      var hit, j := ClimbSplit(s, t, id, x, k);
      if hit {
        // Were x to reach itself, id would reach x after k - j steps and
        // then id again after j more: a loop through id.
        ClimbCompose(t, id, k - j, j);
      }
    }
  }

  /** The move keeps the table acyclic when the requested parent (if any) is
      neither the moved row nor one of its descendants. */
  lemma MoveKeepsAcyclic(s: Store, id: Id, position: int, parentId: Option<Id>)
    requires id in s
    requires Acyclic(s)
    requires parentId.Some? ==> OutsideSubtree(s, id, parentId.value)
    ensures Acyclic(Move(s, id, position, parentId).store)
  {
    var t := Move(s, id, position, parentId).store;
    assert SameParentsExcept(s, t, id);
    if t[id].parent == s[id].parent {
      forall x: Id, k: nat | x in t && 1 <= k
        ensures Climb(t, x, k) == Climb(s, x, k)
      {
        SameParentsSameChains(s, t, x, k);
      }
    } else {
      ReparentKeepsAcyclic(s, t, id, parentId.value);
    }
  }

  /** Tables with the same parent column have the same chains. */
  lemma {:induction false} SameParentsSameChains(s: Store, t: Store, x: Id, k: nat)
    requires t.Keys == s.Keys
    requires forall y :: y in s ==> t[y].parent == s[y].parent
    ensures Climb(t, x, k) == Climb(s, x, k)
    decreases k
  {
    if k != 0 && x in s && s[x].parent.Some? {
      SameParentsSameChains(s, t, s[x].parent.value, k - 1);
    }
  }

  /** The precondition is also necessary: asking for a parent that is the row
      itself (k = 0) or one of its descendants succeeds, and the table is no
      longer acyclic. The tool has no check that would refuse it. */
  lemma DescendantParentMakesCycle(s: Store, id: Id, position: int, p: Id, k: nat)
    requires id in s
    requires Climb(s, p, k) == Some(id)
    ensures Move(s, id, position, Some(p)).reply == Ok
    ensures !Acyclic(Move(s, id, position, Some(p)).store)
  {
    var t := Move(s, id, position, Some(p)).store;
    assert SameParentsExcept(s, t, id);
    var hit, j := ClimbSplit(s, t, id, p, k);
    var m := if hit then j else k;
    assert Climb(t, p, m) == Some(id);
    ClimbCompose(t, id, 1, m);
    assert Climb(t, id, 1 + m) == Some(id);
  }

  /** The simplest such case: asking for a row to become its own parent
      succeeds and leaves a one-row loop. */
  lemma SelfParentAccepted(s: Store, id: Id, position: int)
    requires id in s
    ensures var r := Move(s, id, position, Some(id));
            && r.reply == Ok
            && r.store[id].parent == Some(id)
            && !Acyclic(r.store)
  {
    DescendantParentMakesCycle(s, id, position, id, 0);
  }
}

=== FILE: counting.dfy ===
/** `Dense` in the words of the sibling-order convention: a group of n rows is
    dense exactly when the set of its positions is 0..n-1.
 */
module Counting {
  import opened Edges

  /** The integers 0..n-1. */
  function Range(n: nat): (r: set<int>)
    ensures forall i :: i in r <==> 0 <= i < n
    ensures |r| == n
  {
    if n == 0 then {} else Range(n - 1) + {n - 1}
  }

  /** Positions are pairwise distinct on `a`. */
  predicate InjectiveOn(s: Store, a: set<Id>)
    requires a <= s.Keys
  {
    forall x, y :: x in a && y in a && x != y ==> s[x].position != s[y].position
  }

  /** There are never more positions than rows, and exactly as many when
      positions are pairwise distinct. */
  lemma {:induction false} ImageSize(s: Store, a: set<Id>)
    requires a <= s.Keys
    ensures |Image(s, a)| <= |a|
    ensures InjectiveOn(s, a) ==> |Image(s, a)| == |a|
    decreases |a|
  {
    if |a| != 0 {
      var x :| x in a;
      var rest := a - {x};
      ImageSize(s, rest);
      assert Image(s, a) == Image(s, rest) + {s[x].position};
      if InjectiveOn(s, a) {
        assert InjectiveOn(s, rest);
        assert s[x].position !in Image(s, rest);
      }
    }
  }

  /** Two rows sharing a position leave fewer positions than rows. */
  lemma CollisionShrinksImage(s: Store, a: set<Id>, x: Id, y: Id)
    requires a <= s.Keys
    requires x in a && y in a && x != y && s[x].position == s[y].position
    ensures |Image(s, a)| < |a|
  {
    assert Image(s, a) == Image(s, a - {y});
    ImageSize(s, a - {y});
  }

  /** A subset of a finite set with as many elements is the whole set. */
  lemma SubsetOfSameSize(a: set<int>, b: set<int>)
    requires a <= b && |a| == |b|
    ensures a == b
  {
    assert b == a + (b - a);
    assert a * (b - a) == {};
    assert |b - a| == 0;
  }

  /** A dense group occupies every position 0..n-1. */
  lemma DenseCoversRange(s: Store, parent: Option<Id>)
    requires Dense(s, parent)
    ensures Positions(s, parent) == Range(|Group(s, parent)|)
  {
    var g := Group(s, parent);
    assert InjectiveOn(s, g);
    ImageSize(s, g);
    assert Image(s, g) <= Range(|g|);
    SubsetOfSameSize(Image(s, g), Range(|g|));
  }

  /** A group whose positions are exactly 0..n-1 has no two rows sharing one. */
  lemma RangeMakesDense(s: Store, parent: Option<Id>)
    requires Positions(s, parent) == Range(|Group(s, parent)|)
    ensures Dense(s, parent)
  {
    var g := Group(s, parent);
    var n := |g|;
    forall x, y | x in s && y in s && s[x].parent == parent && s[y].parent == parent && x != y
      ensures s[x].position != s[y].position
    {
      if s[x].position == s[y].position {
        CollisionShrinksImage(s, g, x, y);
      }
    }
    forall x | x in s && s[x].parent == parent
      ensures 0 <= s[x].position < n
    {
      assert s[x].position in Image(s, g);
    }
  }

  /** A sibling group is dense if and only if its positions are exactly
      0..n-1 for a group of n rows. */
  lemma DenseIsExactRange(s: Store, parent: Option<Id>)
    ensures Dense(s, parent) <==> Positions(s, parent) == Range(|Group(s, parent)|)
  {
    if Dense(s, parent) {
      DenseCoversRange(s, parent);
    }
    if Positions(s, parent) == Range(|Group(s, parent)|) {
      RangeMakesDense(s, parent);
    }
  }
}

=== FILE: density.dfy ===
/** Density: when does a move keep every sibling group numbered 0..n-1?

    The tool neither clamps nor checks `position`, and never renumbers the
    root level, so these are conditional guarantees: a non-root group that was
    dense stays dense when the requested slot lies inside the group (or, for
    the group being joined, at most one past its end).
 */
module Density {
  import opened Edges
  import opened MoveEdge
  import opened MoveProperties
  import opened Counting

  /** Every non-root sibling group of the table is dense. */
  ghost predicate NonRootDense(s: Store)
  {
    forall p: Id :: Dense(s, Some(p))
  }

  /** The slot a move asks for is one the destination group can take without
      a gap: inside the group when staying, at most its end when joining. A
      move that stays at root level changes no non-root group, so any slot
      will do there. */
  predicate SlotInRange(s: Store, id: Id, position: int, parentId: Option<Id>)
    requires id in s
  {
    var target := TargetParent(s[id], parentId);
    if target == s[id].parent then target.None? || 0 <= position < |Group(s, target)|
    else 0 <= position <= |Group(s, target)|
  }

  /** Renumbering inside one group: `t` keeps every row's parent, the row `id`
      of group `p` goes from slot `from` to slot `position`, and the siblings in
      between move one step towards `from`. A dense group stays dense. */
  lemma ReorderKeepsDense(s: Store, t: Store, id: Id, p: Option<Id>, position: int)
    requires id in s && s[id].parent == p
    requires t.Keys == s.Keys
    requires forall x :: x in s ==> t[x].parent == s[x].parent
    requires Dense(s, p)
    requires 0 <= position < |Group(s, p)|
    requires t[id].position == position
    requires forall x :: x in s && x != id ==>
               t[x].position ==
                 if s[x].parent == p && s[id].position < s[x].position <= position then s[x].position - 1
                 else if s[x].parent == p && position <= s[x].position < s[id].position then s[x].position + 1
                 else s[x].position
    ensures Group(t, p) == Group(s, p)
    ensures Dense(t, p)
  {
  }

  /** A same-parent move in a dense non-root group keeps the group's members
      and leaves their positions exactly 0..n-1 again: it permutes the group. */
  lemma SameParentKeepsDense(s: Store, id: Id, position: int, parentId: Option<Id>)
    requires id in s
    requires TargetParent(s[id], parentId) == s[id].parent
    requires s[id].parent.Some?
    requires Dense(s, s[id].parent)
    requires 0 <= position < |Group(s, s[id].parent)|
    ensures var t := Move(s, id, position, parentId).store;
            && Group(t, s[id].parent) == Group(s, s[id].parent)
            && Dense(t, s[id].parent)
            && Positions(t, s[id].parent) == Range(|Group(s, s[id].parent)|)
  {
    var t := Move(s, id, position, parentId).store;
    if position == s[id].position {
      NoOpMove(s, id, parentId);
    } else {
      if s[id].position < position {
        MoveDownEffect(s, id, position, parentId);
      } else {
        MoveUpEffect(s, id, position, parentId);
      }
      ReorderKeepsDense(s, t, id, s[id].parent, position);
    }
    DenseCoversRange(t, s[id].parent);
  }

  /** Removing row `id` from group `p` and moving every later sibling one slot
      up: a dense group stays dense, one row smaller. */
  lemma RemovalKeepsDense(s: Store, t: Store, id: Id, p: Option<Id>)
    requires id in s && s[id].parent == p
    requires t.Keys == s.Keys
    requires t[id].parent != p
    requires forall x :: x in s && x != id ==> t[x].parent == s[x].parent
    requires Dense(s, p)
    requires forall x :: x in s && x != id && s[x].parent == p ==>
               t[x].position == if s[x].position > s[id].position then s[x].position - 1 else s[x].position
    ensures Group(t, p) == Group(s, p) - {id}
    ensures |Group(t, p)| == |Group(s, p)| - 1
    ensures Dense(t, p)
  {
  }

  /** Leaving a dense non-root group: the group loses exactly the moved row and
      its remaining rows are numbered 0..n-2. */
  lemma LeavingKeepsDense(s: Store, id: Id, position: int, parentId: Option<Id>)
    requires id in s
    requires TargetParent(s[id], parentId) != s[id].parent
    requires s[id].parent.Some?
    requires Dense(s, s[id].parent)
    ensures var t := Move(s, id, position, parentId).store;
            && Group(t, s[id].parent) == Group(s, s[id].parent) - {id}
            && |Group(t, s[id].parent)| == |Group(s, s[id].parent)| - 1
            && Dense(t, s[id].parent)
            && Positions(t, s[id].parent) == Range(|Group(s, s[id].parent)| - 1)
  {
    var t := Move(s, id, position, parentId).store;
    CrossParentEffect(s, id, position, parentId);
    RemovalKeepsDense(s, t, id, s[id].parent);
    DenseCoversRange(t, s[id].parent);
  }

  /** Inserting row `id` into group `p` at slot `position` and moving every
      sibling at or after it one slot down: a dense group stays dense, one
      row larger. */
  lemma InsertionKeepsDense(s: Store, t: Store, id: Id, p: Option<Id>, position: int)
    requires id in s && s[id].parent != p
    requires t.Keys == s.Keys
    requires t[id] == Edge(p, position)
    requires forall x :: x in s && x != id ==> t[x].parent == s[x].parent
    requires Dense(s, p)
    requires 0 <= position <= |Group(s, p)|
    requires forall x :: x in s && x != id && s[x].parent == p ==>
               t[x].position == if s[x].position >= position then s[x].position + 1 else s[x].position
    ensures Group(t, p) == Group(s, p) + {id}
    ensures |Group(t, p)| == |Group(s, p)| + 1
    ensures Dense(t, p)
  {
  }

  /** Joining a dense group at a slot between 0 and its size: the group gains
      exactly the moved row and is numbered 0..m. This holds whatever group
      the row came from, the root level included. */
  lemma JoiningKeepsDense(s: Store, id: Id, position: int, parentId: Option<Id>)
    requires id in s
    requires TargetParent(s[id], parentId) != s[id].parent
    requires Dense(s, parentId)
    requires 0 <= position <= |Group(s, parentId)|
    ensures var t := Move(s, id, position, parentId).store;
            && Group(t, parentId) == Group(s, parentId) + {id}
            && |Group(t, parentId)| == |Group(s, parentId)| + 1
            && Dense(t, parentId)
            && Positions(t, parentId) == Range(|Group(s, parentId)| + 1)
  {
    var t := Move(s, id, position, parentId).store;
    CrossParentEffect(s, id, position, parentId);
    InsertionKeepsDense(s, t, id, parentId, position);
    DenseCoversRange(t, parentId);
  }

  /** A group none of whose rows changed, and which no row joined. */
  lemma UnchangedGroupKeepsDense(s: Store, t: Store, q: Option<Id>)
    requires t.Keys == s.Keys
    requires forall x :: x in s && (s[x].parent == q || t[x].parent == q) ==> t[x] == s[x]
    ensures Group(t, q) == Group(s, q)
    ensures Dense(t, q) <==> Dense(s, q)
  {
  }

  /** A group that is neither the old nor the new parent keeps its members and
      their records, so whatever numbering it had survives the move. */
  lemma UntouchedGroupKeepsDense(s: Store, id: Id, position: int, parentId: Option<Id>, q: Option<Id>)
    requires id in s
    requires q != s[id].parent && q != TargetParent(s[id], parentId)
    ensures var t := Move(s, id, position, parentId).store;
            && Group(t, q) == Group(s, q)
            && (Dense(t, q) <==> Dense(s, q))
  {
    var t := Move(s, id, position, parentId).store;
    MoveFrame(s, id, position, parentId);
    UnchangedGroupKeepsDense(s, t, q);
  }

  /** The table-wide invariant: if every non-root group is dense and the
      requested slot is in range, every non-root group is dense afterwards. */
  lemma MoveKeepsNonRootDense(s: Store, id: Id, position: int, parentId: Option<Id>)
    requires id in s
    requires NonRootDense(s)
    requires SlotInRange(s, id, position, parentId)
    ensures NonRootDense(Move(s, id, position, parentId).store)
  {
    var t := Move(s, id, position, parentId).store;
    var from := s[id].parent;
    var target := TargetParent(s[id], parentId);
    forall p: Id
      ensures Dense(t, Some(p))
    {
      var q := Some(p);
      if target == from && q == from {
        SameParentKeepsDense(s, id, position, parentId);
      } else if target != from && q == from {
        LeavingKeepsDense(s, id, position, parentId);
      } else if target != from && q == target {
        JoiningKeepsDense(s, id, position, parentId);
      } else {
        UntouchedGroupKeepsDense(s, id, position, parentId, q);
      }
    }
  }
}

=== FILE: edges.dfy ===
/** The blueprint_edges relation as the reposition engine sees it.

    Each row of the table is a node of a blueprint outline. The engine reads and
    writes only two of its columns: `parent_id` (null for a root entry) and
    `position` (the rank among the rows that share the same `parent_id`). The
    table is modelled as a finite map from `edget_id` to those two columns; the
    payload columns (title, description, weight, blueprint_id) are never
    touched by a move and are not part of the model.
 */
module Edges {

  /** An `edget_id` (a uuid in the database, opaque here). */
  type Id = string

  datatype Option<+T> = None | Some(value: T)

  /** The columns of one row that the engine reads and writes. `None` is a
      null `parent_id`, i.e. a root-level entry. The tool accepts any integer
      `position`, negative ones included; the width of the database column is
      not modelled, so positions here are unbounded integers. */
  datatype Edge = Edge(parent: Option<Id>, position: int)

  /** The whole table, keyed by `edget_id`. */
  type Store = map<Id, Edge>

  /** The sibling group of `parent`: the ids of every row whose `parent_id`
      equals it. `blueprint_id` is not modelled, so `Group(s, None)` holds the
      root rows of every blueprint in `s`; it is one blueprint's root level
      only when `s` holds a single blueprint. */
  function Group(s: Store, parent: Option<Id>): set<Id>
  {
    set x | x in s && s[x].parent == parent
  }

  /** The sibling group of `parent` is dense: its positions are pairwise
      distinct and all lie in 0..n-1, where n is the size of the group. With
      n members this means the positions are exactly 0..n-1 (see
      `DenseIsExactRange`). */
  predicate Dense(s: Store, parent: Option<Id>)
  {
    && (forall x :: x in s && s[x].parent == parent ==>
          0 <= s[x].position < |Group(s, parent)|)
    && (forall x, y :: x in s && y in s && s[x].parent == parent && s[y].parent == parent && x != y ==>
          s[x].position != s[y].position)
  }

  /** The positions of the rows `a` of `s`. */
  function Image(s: Store, a: set<Id>): set<int>
    requires a <= s.Keys
  {
    set x | x in a :: s[x].position
  }

  /** The set of positions occupied in the sibling group of `parent`. */
  function Positions(s: Store, parent: Option<Id>): set<int>
  {
    Image(s, Group(s, parent))
  }
}

=== FILE: move.dfy ===
/** The move-edge tool: reposition one row of blueprint_edges and renumber the
    siblings it leaves and joins.

    `Move` is the tool's effect as a pure function of the table; `Execute`
    performs the same steps in the tool's order, one row write at a time, and
    is proved to reach the same table.
 */
module MoveEdge {
  import opened Edges
  import opened Shifts

  /** Why a move failed. The tool returns `success: false` with a message; the
      only failure the model keeps is an `edgeId` with no row. */
  datatype MoveError = NotFound

  /** The tool's reply: `{ success: true }` or `{ success: false, error }`. */
  datatype Reply = Ok | Failed(error: MoveError)

  /** The reply together with the table after the call. */
  datatype MoveResult = MoveResult(reply: Reply, store: Store)

  /** `parentId ?? currentParentId`: an omitted `parentId` keeps the current
      parent. The input schema only admits a uuid string when the argument is
      present, so a caller cannot ask for a null parent. */
  function TargetParent(cur: Edge, parentId: Option<Id>): (p: Option<Id>)
    ensures parentId.None? ==> p == cur.parent
    ensures parentId.Some? ==> p == parentId
    ensures p.None? ==> cur.parent.None?
  {
    if parentId.Some? then parentId else cur.parent
  }

  /** Siblings behind the slot `from` that is being vacated: positions p with p >= from + 1. */
  function GapFilter(parent: Id, from: int): Filter
  {
    Filter(parent, from + 1, NoLimit)
  }

  /** Siblings at or behind the slot being opened: positions p with p >= position. */
  function SlotFilter(parent: Id, position: int): Filter
  {
    Filter(parent, position, NoLimit)
  }

  /** Moving down: positions p with from < p <= position. */
  function DownFilter(parent: Id, from: int, position: int): Filter
  {
    Filter(parent, from + 1, AtMost(position))
  }

  /** Moving up: positions p with position <= p < from. */
  function UpFilter(parent: Id, from: int, position: int): Filter
  {
    Filter(parent, position, AtMost(from - 1))
  }

  /** Cross-parent, first half: the old group closes the gap the row leaves.
      Skipped when the row was at root level. */
  function CloseGap(s: Store, cur: Edge): Store
  {
    if cur.parent.Some? then Shift(s, GapFilter(cur.parent.value, cur.position), -1) else s
  }

  /** Cross-parent, second half: the new group opens a slot at `position`. */
  function OpenSlot(s: Store, target: Option<Id>, position: int): Store
  {
    if target.Some? then Shift(s, SlotFilter(target.value, position), 1) else s
  }

  /** Same parent: the siblings between the old and the new slot move one step
      towards the old slot. Root-level siblings are left alone. */
  function ShiftBetween(s: Store, cur: Edge, position: int): Store
  {
    if cur.parent.None? then s
    else if cur.position < position then Shift(s, DownFilter(cur.parent.value, cur.position, position), -1)
    else Shift(s, UpFilter(cur.parent.value, cur.position, position), 1)
  }

  /** The tool's `execute` on table `s` with input `(edgeId, position, parentId)`. */
  function Move(s: Store, id: Id, position: int, parentId: Option<Id>): (r: MoveResult)
    ensures r.reply.Ok? <==> id in s
    ensures r.reply.Failed? ==> r.store == s
    ensures r.store.Keys == s.Keys
    ensures id in s ==> r.store[id] == Edge(TargetParent(s[id], parentId), position)
    ensures forall x :: x in s && x != id ==> r.store[x].parent == s[x].parent
  {
    if id !in s then MoveResult(Failed(NotFound), s)
    else
      var cur := s[id];
      var target := TargetParent(cur, parentId);
      if cur.parent != target then
        var t := OpenSlot(CloseGap(s, cur), target, position);
        MoveResult(Ok, t[id := Edge(target, position)])
      else if cur.position == position then
        MoveResult(Ok, s)
      else
        var t := ShiftBetween(s, cur, position);
        MoveResult(Ok, t[id := t[id].(position := position)])
  }

  /** The tool's steps in its own order: look the row up, run each select and
      write its rows one by one, then write the moved row. */
  method Execute(s: Store, id: Id, position: int, parentId: Option<Id>) returns (r: MoveResult)
    ensures r == Move(s, id, position, parentId)
  {
    if id !in s {
      return MoveResult(Failed(NotFound), s);
    }
    var cur := s[id];
    var target := TargetParent(cur, parentId);
    var t := s;
    if cur.parent != target {
      if cur.parent.Some? {
        t := ApplyRows(t, GapFilter(cur.parent.value, cur.position), -1);
      }
      if target.Some? {
        t := ApplyRows(t, SlotFilter(target.value, position), 1);
      }
      t := t[id := Edge(target, position)];
    } else {
      if cur.position == position {
        return MoveResult(Ok, s);
      }
      if cur.position < position {
        if cur.parent.Some? {
          t := ApplyRows(t, DownFilter(cur.parent.value, cur.position, position), -1);
        }
      } else {
        if cur.parent.Some? {
          t := ApplyRows(t, UpFilter(cur.parent.value, cur.position, position), 1);
        }
      }
      t := t[id := t[id].(position := position)];
    }
    return MoveResult(Ok, t);
  }
}

=== FILE: move_lemmas.dfy ===
/** What one move does to every row of the table, branch by branch, and the
    consequences the tool's callers rely on: the no-op, the meaning of an
    omitted parent, the frame, and the root level being left alone.
 */
module MoveProperties {
  import opened Edges
  import opened Shifts
  import opened MoveEdge

  /** An unknown `edgeId` fails and writes nothing. */
  lemma UnknownEdgeWritesNothing(s: Store, id: Id, position: int, parentId: Option<Id>)
    requires id !in s
    ensures Move(s, id, position, parentId) == MoveResult(Failed(NotFound), s)
  {
  }

  /** Same parent and same position: the call succeeds and the table is unchanged. */
  lemma NoOpMove(s: Store, id: Id, parentId: Option<Id>)
    requires id in s
    requires TargetParent(s[id], parentId) == s[id].parent
    ensures Move(s, id, s[id].position, parentId) == MoveResult(Ok, s)
  {
  }

  /** Omitting `parentId` is the same call as passing the current parent. */
  lemma OmittedParentIsCurrentParent(s: Store, id: Id, position: int)
    requires id in s && s[id].parent.Some?
    ensures Move(s, id, position, None) == Move(s, id, position, s[id].parent)
  {
  }

  /** Moving down within a parent: exactly the siblings strictly after the old
      slot and up to the new one have their position decreased by one; the row
      takes the new slot; every other row is unchanged. */
  lemma MoveDownEffect(s: Store, id: Id, position: int, parentId: Option<Id>)
    requires id in s
    requires TargetParent(s[id], parentId) == s[id].parent
    requires s[id].parent.Some?
    requires s[id].position < position
    ensures var t := Move(s, id, position, parentId).store;
            && t[id] == s[id].(position := position)
            && forall x :: x in s && x != id ==>
                 t[x] == if s[x].parent == s[id].parent && s[id].position < s[x].position <= position
                         then Moved(s[x], -1) else s[x]
  {
  }

  /** Moving up within a parent: exactly the siblings from the new slot up to
      just before the old one have their position increased by one; the row
      takes the new slot; every other row is unchanged. */
  lemma MoveUpEffect(s: Store, id: Id, position: int, parentId: Option<Id>)
    requires id in s
    requires TargetParent(s[id], parentId) == s[id].parent
    requires s[id].parent.Some?
    requires position < s[id].position
    ensures var t := Move(s, id, position, parentId).store;
            && t[id] == s[id].(position := position)
            && forall x :: x in s && x != id ==>
                 t[x] == if s[x].parent == s[id].parent && position <= s[x].position < s[id].position
                         then Moved(s[x], 1) else s[x]
  {
  }

  /** Moving within the root level renumbers nothing: only the row's own
      position is written. */
  lemma MoveWithinRootEffect(s: Store, id: Id, position: int, parentId: Option<Id>)
    requires id in s
    requires s[id].parent.None? && parentId.None?
    ensures Move(s, id, position, parentId).store == s[id := Edge(None, position)]
  {
  }

  /** Moving to another parent: the old group (if not root) closes the gap,
      the new group opens a slot at `position`, the row is rewritten with its
      new parent and position, and every other row is unchanged. Such a move
      always names its parent explicitly, and that parent is never null. */
  lemma CrossParentEffect(s: Store, id: Id, position: int, parentId: Option<Id>)
    requires id in s
    requires TargetParent(s[id], parentId) != s[id].parent
    ensures parentId.Some?
    ensures var t := Move(s, id, position, parentId).store;
            && t[id] == Edge(parentId, position)
            && forall x :: x in s && x != id ==>
                 t[x] == if s[id].parent.Some? && s[x].parent == s[id].parent && s[x].position > s[id].position
                           then Moved(s[x], -1)
                         else if s[x].parent == parentId && s[x].position >= position
                           then Moved(s[x], 1)
                         else s[x]
  {
  }

  /** The moved row itself is never selected by any of the sibling filters:
      it still sits at its old slot in its old group when they run. */
  lemma MovedEdgeNeverShifted(s: Store, id: Id, position: int, parentId: Option<Id>)
    requires id in s
    ensures s[id].parent.Some? ==>
              && !Matches(s[id], GapFilter(s[id].parent.value, s[id].position))
              && !Matches(s[id], DownFilter(s[id].parent.value, s[id].position, position))
              && !Matches(s[id], UpFilter(s[id].parent.value, s[id].position, position))
    ensures var target := TargetParent(s[id], parentId);
            target != s[id].parent && target.Some? ==>
              !Matches(CloseGap(s, s[id])[id], SlotFilter(target.value, position))
  {
  }

  /** Frame: a row other than the moved one whose group is neither the old
      nor the new parent keeps its record, whatever the branch. */
  lemma MoveFrame(s: Store, id: Id, position: int, parentId: Option<Id>)
    requires id in s
    ensures var t := Move(s, id, position, parentId).store;
            forall x ::
              (x in s && x != id && s[x].parent != s[id].parent &&
               s[x].parent != TargetParent(s[id], parentId)) ==> t[x] == s[x]
  {
  }

  /** Root-level rows are never renumbered: in every branch the only
      root-level row that can change is the moved row itself. */
  lemma RootNeverRenumbered(s: Store, id: Id, position: int, parentId: Option<Id>)
    requires id in s
    ensures var t := Move(s, id, position, parentId).store;
            forall x :: x in s && x != id && s[x].parent.None? ==> t[x] == s[x]
  {
  }
}

=== FILE: scenarios.dfy ===
/** Concrete tables run through `Move`: the worked reorder example, and
    dense numberings the tool as written breaks. Each of these is a move that
    one precondition of the `Density` lemmas excludes: a slot past the end of
    the group, a negative slot, a slot past the end of the group being
    joined, leaving the root level, and reordering within the root level.
 */
module Scenarios {
  import opened Edges
  import opened MoveEdge

  /** A root topic "P" with four subtopics at positions 0..3. */
  function FourChildren(): Store
  {
    map["P" := Edge(None, 0),
        "a" := Edge(Some("P"), 0), "b" := Edge(Some("P"), 1),
        "c" := Edge(Some("P"), 2), "d" := Edge(Some("P"), 3)]
  }

  /** Moving the last subtopic to slot 1 pushes the old occupants of 1 and 2
      to 2 and 3; the first subtopic and the parent stay put. */
  lemma MoveLastToSecond()
    ensures Move(FourChildren(), "d", 1, None) ==
            MoveResult(Ok, map["P" := Edge(None, 0),
                               "a" := Edge(Some("P"), 0), "b" := Edge(Some("P"), 2),
                               "c" := Edge(Some("P"), 3), "d" := Edge(Some("P"), 1)])
  {
  }

  /** A root topic "P" with two subtopics at 0 and 1. */
  function TwoChildren(): Store
  {
    map["P" := Edge(None, 0), "a" := Edge(Some("P"), 0), "b" := Edge(Some("P"), 1)]
  }

  /** The requested slot is not clamped: moving "a" to slot 5 of a two-row
      group renumbers "b" to 0 and parks "a" at 5, so the group is no longer
      dense. */
  lemma SlotPastEndLeavesGap()
    ensures Dense(TwoChildren(), Some("P"))
    ensures var t := Move(TwoChildren(), "a", 5, None).store;
            && t == map["P" := Edge(None, 0), "a" := Edge(Some("P"), 5), "b" := Edge(Some("P"), 0)]
            && !Dense(t, Some("P"))
  {
    var s := TwoChildren();
    assert Group(s, Some("P")) == {"a", "b"};
    var t := Move(s, "a", 5, None).store;
    assert t["b"] == Edge(Some("P"), 0);
    assert t == map["P" := Edge(None, 0), "a" := Edge(Some("P"), 5), "b" := Edge(Some("P"), 0)];
    assert Group(t, Some("P")) == {"a", "b"};
  }

  /** Three root topics at 0, 1, 2. */
  function ThreeRoots(): Store
  {
    map["r" := Edge(None, 0), "q" := Edge(None, 1), "P" := Edge(None, 2)]
  }

  /** The root level is never renumbered: moving the first root topic under
      "P" leaves the other two at 1 and 2, a gap at 0. */
  lemma LeavingRootLeavesGap()
    ensures Dense(ThreeRoots(), None)
    ensures var t := Move(ThreeRoots(), "r", 0, Some("P")).store;
            && t == map["r" := Edge(Some("P"), 0), "q" := Edge(None, 1), "P" := Edge(None, 2)]
            && !Dense(t, None)
  {
    var s := ThreeRoots();
    assert Group(s, None) == {"r", "q", "P"};
    var t := Move(s, "r", 0, Some("P")).store;
    assert t == map["r" := Edge(Some("P"), 0), "q" := Edge(None, 1), "P" := Edge(None, 2)];
    assert Group(t, None) == {"q", "P"};
  }

  /** Negative slots are not rejected: moving "b" to slot -1 of a two-row
      group pushes "a" to 1 and parks "b" at -1, so the group is no longer
      dense. */
  lemma NegativeSlotLeavesGap()
    ensures var t := Move(TwoChildren(), "b", -1, None).store;
            && t == map["P" := Edge(None, 0), "a" := Edge(Some("P"), 1), "b" := Edge(Some("P"), -1)]
            && !Dense(t, Some("P"))
  {
  }

  /** A root topic "P" with one subtopic, and a second root topic "q". */
  function OneChildAndRoot(): Store
  {
    map["P" := Edge(None, 0), "q" := Edge(None, 1), "a" := Edge(Some("P"), 0)]
  }

  /** Joining a group past its end is not refused either: "q" joins the
      one-row group of "P" at slot 2, nothing is shifted, and the two rows
      sit at 0 and 2. */
  lemma JoinPastEndLeavesGap()
    ensures Dense(OneChildAndRoot(), Some("P"))
    ensures var t := Move(OneChildAndRoot(), "q", 2, Some("P")).store;
            && t == map["P" := Edge(None, 0), "q" := Edge(Some("P"), 2), "a" := Edge(Some("P"), 0)]
            && !Dense(t, Some("P"))
  {
    var s := OneChildAndRoot();
    assert Group(s, Some("P")) == {"a"};
    var t := Move(s, "q", 2, Some("P")).store;
    assert t == map["P" := Edge(None, 0), "q" := Edge(Some("P"), 2), "a" := Edge(Some("P"), 0)];
    assert Group(t, Some("P")) == {"a", "q"};
  }

  /** Reordering within the root level renumbers nothing: moving "r" from 0
      to 2 leaves it sharing slot 2 with "P" and slot 0 empty. */
  lemma ReorderAtRootLeavesDuplicate()
    ensures var t := Move(ThreeRoots(), "r", 2, None).store;
            && t == map["r" := Edge(None, 2), "q" := Edge(None, 1), "P" := Edge(None, 2)]
            && !Dense(t, None)
  {
    var t := Move(ThreeRoots(), "r", 2, None).store;
    assert t["r"] == Edge(None, 2) && t["P"] == Edge(None, 2);
  }
}

=== FILE: shift.dfy ===
/** The select-then-update pattern the engine uses to renumber siblings.

    Every renumbering in the tool is the same two steps: select the rows
    `(edget_id, position)` with a given `parent_id` whose position lies in a
    range, then, for each selected row, write `position := row.position + delta`
    to the row with that id. `Shift` is the effect of the whole step as one map
    update; `ApplyRows` is the row-by-row loop, and proves that it reaches the
    same table whatever order the rows come back in.
 */
module Shifts {
  import opened Edges

  /** An optional upper bound on a position range. */
  datatype Bound = NoLimit | AtMost(limit: int)

  /** The filter of one select: equality on `parent_id`, an inclusive lower
      bound on `position` and an optional inclusive upper bound. A strict bound
      `> x` or `< x` is the inclusive bound `x + 1` or `x - 1`.
      The parent is never null: every select in the tool is guarded by a
      null check on it. */
  datatype Filter = Filter(parent: Id, atLeast: int, upTo: Bound)

  /** One row of a select result: the id and the position read at select time. */
  datatype Row = Row(id: Id, position: int)

  predicate Matches(e: Edge, f: Filter)
  {
    && e.parent == Some(f.parent)
    && f.atLeast <= e.position
    && (f.upTo.AtMost? ==> e.position <= f.upTo.limit)
  }

  /** The rows a select with filter `f` returns. */
  function Select(s: Store, f: Filter): set<Row>
  {
    set x | x in s && Matches(s[x], f) :: Row(x, s[x].position)
  }

  /** A row moved by `delta` slots; its parent does not change. */
  function Moved(e: Edge, delta: int): Edge
  {
    e.(position := e.position + delta)
  }

  /** The table after every row selected by `f` has moved by `delta`. */
  function Shift(s: Store, f: Filter, delta: int): Store
  {
    map x | x in s :: if Matches(s[x], f) then Moved(s[x], delta) else s[x]
  }

  /** The per-row update loop: the rows of `Select(s, f)` are written one at a
      time, each to its select-time position plus `delta`, in whatever order the
      store hands them back. The result is the same as the one-step `Shift`:
      no row is written twice, and nothing outside the selection is touched. */
  method ApplyRows(s: Store, f: Filter, delta: int) returns (t: Store)
    ensures t == Shift(s, f, delta)
    ensures t.Keys == s.Keys
    ensures forall x :: x in s && Matches(s[x], f) ==>
              t[x].parent == s[x].parent && t[x].position == s[x].position + delta
    ensures forall x :: x in s && !Matches(s[x], f) ==> t[x] == s[x]
  {
    var rows := Select(s, f);
    t := s;
    while rows != {}
      invariant rows <= Select(s, f)
      invariant t.Keys == s.Keys
      invariant forall x :: x in s ==>
                  t[x] == if Matches(s[x], f) && Row(x, s[x].position) !in rows
                          then Moved(s[x], delta) else s[x]
      decreases rows
    {
      var r :| r in rows;
      t := t[r.id := t[r.id].(position := r.position + delta)];
      rows := rows - {r};
    }
  }
}
